=== FILE: README.md ===
# Slack image relay: conversation state machine and delivery outcome

A Dafny model of the core of a Slack bot that turns a two-message dialogue into
an image. A user types `generate <prompt>` in the watched channel. The bot
stores the prompt and asks for one of eleven aspect ratios. When the user
answers with one of them, the bot calls an image model, downloads the image and
uploads it to the channel. Any failure of the image model, the download or the
upload is reported with one error message, provided posting to the channel
itself succeeds: the model assumes `chat_postMessage` never raises.

The only state is the table of pending prompts, a map from Slack user id to
prompt. The model treats each message event as a pure step
`Step(config, table, event) -> (table', action)`. The generation and delivery
that follow a completed command are a pure function of the outside world's
answers: what the image model returned, what the HTTP fetch returned, and
whether staging, uploading or deleting the file raised.

- `wrappers.dfy`: `Option`, for the settings and event fields that may be absent.
  Settings and event fields are compared as Python compares them. An unset
  channel setting therefore matches an event without a channel, as
  `None == None` does. An unset bot id matches no user.
- `text.dfy`: Python's `str.strip()` with Python's whitespace set, `str.lower()`
  on ASCII letters, `startswith`, and `", ".join` with an independent `Split`
  that reads a joined list back.
- `conversation.dfy`: the ratio list, the event filter, `Decide`/`Step`, the
  stream `Run`, and the transition and counting lemmas.
- `pipeline.dfy`: normalising the model's output, and mapping fetch and upload
  results to channel effects.
- `relay.dfy`: one event end to end (`Handle`), the reply texts, and the
  two-message dialogue in its success and failure forms.

Key facts proved:

- Every stored prompt is non-empty and stripped.
- The "please give a prompt" reply can never be sent. The message was
  stripped before the command test, so text always follows `generate `
  (`Conversation.CommandPromptNonEmpty`).
- Over any event stream, generations for a user plus a prompt still pending at
  the end equal the prompts stored plus one pending at the start. So a prompt
  is never used twice.
- A delivery produces exactly one upload or exactly one error notice. The one
  exception is when deleting the staging file fails after a successful upload.
  Posting the notice is assumed to succeed (see "Left out").

Behaviour of the code worth knowing, all modelled as written:

- The message `generate ` with nothing after it is stripped to `generate`
  before the command test. That lacks the prefix's trailing space, so from a
  user with nothing pending the message is ignored
  (`Conversation.BareCommandIgnored`). From a user with a pending prompt it is
  a reply that is not a ratio, so the ratios are offered again
  (`Conversation.BareCommandWhilePending`).
- `output.jpg` is deleted only after a successful upload. A failed write or
  upload can leave it on disk (`Delivery.stagingLeft`).
- If `os.remove` raises after the upload succeeded, the error notice is posted
  after the image (`TransferFault.CleanupFault`).
- `Text.Lower` lower-cases only A-Z. On the command test this agrees with
  Python's `lower()` for every string. No other code point lowers to a
  character of `generate `. The only code point whose lower-case form is
  longer, U+0130, lowers to a string starting with `i`. So a message passing
  the test at main.py:104 starts with nine ASCII characters, and the slice at
  main.py:105 lines up.

## Model

| member | source | states |
|---|---|---|
| Text.IsSpace | main.py:66 | Definition; no contract. The code points Python's `str.isspace()` accepts, which `strip()` removes. |
| Text.Strip | main.py:66 | The result is the slice of the message left after dropping whitespace at both ends. Everything dropped is whitespace, the result neither starts nor ends with whitespace, and it is empty exactly when the message is all whitespace. |
| Text.StripFixedPoint | main.py:66 | `strip` leaves a string unchanged exactly when the string has no whitespace at either end. |
| Text.StripIdempotent | main.py:66 | `strip()` is idempotent: stripping an already stripped text changes nothing. |
| Text.StripKeepsNonSpace | main.py:105-106 | A text with any non-whitespace character strips to a non-empty string. |
| Text.Lower | main.py:104 | Lower-casing keeps the length, so the slice at line 105 lines up with the lower-cased test at line 104. |
| Text.LowerCharKeepsSpace | main.py:104 | Lower-casing neither creates nor removes whitespace. |
| Text.LowerFixed | main.py:104 | Text without capital letters is its own lower-case form. |
| Text.Join | main.py:100 | Definition; no contract. Python's `sep.join(xs)`. |
| Text.SplitJoin | main.py:100 | The list joined with `", "` reads back as the original list when no element contains a comma. |
| Conversation.RatioVocabulary | main.py:34 | `Ratios` holds the eleven distinct strings of RATIOS, in order. |
| Conversation.UserOf | main.py:62 | Definition; no contract. The event's user id, `""` when absent. |
| Conversation.MessageOf | main.py:66 | Definition; no contract. The event's text, `""` when absent, stripped. |
| Conversation.Addressed | main.py:61-68 | Definition; no contract. The event is a message in the configured channel, not from the bot, and non-blank after stripping. |
| Conversation.IsCommand | main.py:104 | Definition; no contract. The lower-cased message starts with `generate `. |
| Conversation.PromptOf | main.py:105 | Definition; no contract. The text after the nine-character prefix, in original case, stripped. |
| Conversation.CommandPromptNonEmpty | main.py:104-108 | A stripped message that starts with `generate ` (ignoring case) has a non-empty prompt after the prefix. So the empty-prompt reply at lines 106-108 cannot happen. |
| Conversation.StartCommand | main.py:104-112 | For a command from a user with nothing pending, the stored prompt is the stripped text after the prefix in its original case, and only that user's entry changes. The empty-prompt reply is given exactly when that text is empty, and then the table is unchanged. |
| Conversation.Decide | main.py:71-112 | On a non-blank stripped message, a user with a pending prompt gets Generate exactly when the text is one of the 11 ratios. The entry is then removed and its prompt used. Any other text gets the re-prompt and the table is unchanged. A user with nothing pending gets the ratio question exactly when the text is a command. Other users' entries never change, well-formed tables stay well-formed, and the empty-prompt reply never occurs. |
| Conversation.Step | main.py:61-112 | Events of another type, on another channel, from the bot itself, or blank after stripping are ignored and change nothing. Only the sender's entry can change. A well-formed table stays well-formed. No event yields the empty-prompt reply. Ignore and re-prompt leave the table unchanged. The ratio question adds the sender's entry. Generate removes it and uses the stored prompt. |
| Conversation.ValidRatioConsumes | main.py:71-75 | With a pending prompt, a reply that is one of the ratios removes the entry and generates with the stored prompt and that ratio. |
| Conversation.InvalidReplyKeeps | main.py:99-101 | With a pending prompt, any reply that is not a ratio leaves the table as it was and asks again. |
| Conversation.NoRatioIsCommand | main.py:34 | None of the 11 ratios starts with `generate `. |
| Conversation.PendingCommandIsInvalidReply | main.py:71-101 | A new `generate ...` while a prompt is pending does not replace it. It is answered as an invalid ratio. |
| Conversation.NewCommandStores | main.py:104-112 | With nothing pending, a command stores its non-empty prompt under the sender and asks for a ratio. |
| Conversation.NonCommandIgnored | main.py:104-112 | With nothing pending, a message that is not a command is ignored and changes nothing. |
| Conversation.ReplayedRatioIgnored | main.py:71-104 | Sending the same ratio again right after it was consumed is ignored and changes nothing. |
| Conversation.BareCommandIgnored | main.py:66-104 | From a user with nothing pending, the message `generate ` alone is ignored, because stripping removes the space the prefix needs. |
| Conversation.BareCommandWhilePending | main.py:66-100 | From a user with a pending prompt, the message `generate ` alone keeps the prompt and is answered with the invalid-ratio re-prompt. |
| Conversation.Run | main.py:32-112 | Over a stream of events there is one reply per event, stored prompts stay well-formed, the empty-prompt reply never occurs, and only addressed events get a reply. |
| Conversation.EachPromptConsumedOnce | main.py:71-111 | For every user and every stream: generations plus a prompt pending at the end equal prompts stored plus a prompt pending at the start. |
| Conversation.GenerationsBounded | main.py:71-111 | A user never gets more generations than the prompts they stored plus one pending at the start. |
| Pipeline.ImageUrl | main.py:47-50 | The image reference is the first element of a non-empty list answer, or the value itself for a single answer. It is `""` when the call raised, including on an empty list, and a non-empty result always comes from the answer. |
| Pipeline.Caption | main.py:89 | The upload comment starts with a mention of the requesting user. |
| Pipeline.Deliver | main.py:75-98 | The image is fetched only for a non-empty reference. There is one upload, of the fetched bytes with the user's caption, exactly when the reference is non-empty, the status is 200 and staging and upload did not raise. There is one error notice on every other path, and also when deleting the file raised after the upload. The staging file can remain exactly when it was written but not deleted. |
| Pipeline.ExactlyOneOutcome | main.py:77-98 | Unless deleting the staging file fails, a delivery has exactly one effect: the upload when the delivery succeeded, otherwise one error notice. |
| Pipeline.EarlyFailureLeavesNothing | main.py:77-98 | An empty reference, a failed fetch or a non-200 status gives only the error notice and no staging file. |
| Pipeline.SuccessfulDelivery | main.py:79-91 | A reference, a 200 answer and a clean transfer upload the fetched bytes once and leave no staging file. |
| Relay.RatioList | main.py:100 | Definition; no contract. The ratios joined with `", "`. |
| Relay.ReplyText | main.py:100-112 | The ratio question and the re-prompt are posted as text. Ignore and Generate post nothing. |
| Relay.Replies | main.py:100-112 | A text reply posts exactly the message `ReplyText` gives, as the only effect, and nothing otherwise. It is never an upload. |
| Relay.Handle | main.py:61-112 | An event the filter drops has no effect at all. Only the sender's entry changes. The model is called at most once, with upsampling on, exactly when a pending user sends a ratio, and with the stored prompt and that ratio. Without a call there is no upload, at most one message and no staging file. With a call the upload happens exactly when delivery succeeds, and unless cleanup fails there is exactly one upload or one error notice. |
| Relay.RatiosSeparatorFree | main.py:34 | No ratio contains a comma. |
| Relay.RepliesListAllRatios | main.py:100-112 | After its notice, the ratio question and the re-prompt list exactly the 11 ratios in order. |
| Relay.CommandAsksRatio | main.py:104-112 | A command from a user with nothing pending stores the prompt and posts the ratio question. It calls nothing and uploads nothing. |
| Relay.InvalidReplyReprompts | main.py:99-101 | A non-ratio reply from a pending user keeps the table, calls nothing, and posts exactly the re-prompt followed by the ratios joined with `", "`. |
| Relay.RatioReplyGenerates | main.py:71-98 | A ratio reply from a pending user removes the entry, calls the model once with that prompt and ratio, and produces what `Deliver` produces. |
| Relay.DialogueDelivers | main.py:71-112 | `generate X` then a ratio R from one user, with the model returning a reference and the fetch answering 200, gives: the ratio question, one call with X and R, one fetch of that reference, one upload of the fetched bytes, and the table as it was before. |
| Relay.DialogueFailsOnEmptyResult | main.py:71-98 | The same dialogue, with the model returning nothing usable, gives one call, no fetch, one error notice, no upload, no staging file, and the table as it was before. |
| Relay.RedFoxExample | main.py:61-75 | `generate a red fox` then `16:9` on the configured channel is such a dialogue: prompt `a red fox`, ratio `16:9`. |
| Relay.RedFoxDialogue | main.py:71-112 | For user `U1` on channel `C1` with nothing pending, `generate a red fox` then `16:9`, with a model reference and a 200 fetch, gives: the ratio question, one call with (`a red fox`, `16:9`, upsampling on), one upload of the fetched bytes, and nothing pending for `U1`. |
| Relay.AddThenRemove | main.py:73-111 | Storing a prompt for a user with none and then consuming it restores the table. |

## Left out

- Socket Mode envelope handling and acknowledgement (main.py:53-60), client setup, `main()` and the keep-alive loop (main.py:22-27, 114-138). They are transport and process plumbing.
- `replicate.run`, `requests.get`, the file write, `files_upload_v2` and `os.remove`. These are network and filesystem calls. Their results are inputs (`GeneratorOutput`, `FetchResult`, `TransferFault`). Three of the calls are recorded: `replicate.run` in `Reaction.calls`, `requests.get` in `fetched`, and `files_upload_v2` as an `Upload` effect. The file write (main.py:82-83) and `os.remove` (main.py:91) are not recorded; they show up only through the `TransferFault` input and the `stagingLeft` flag.
- `chat_postMessage` is assumed not to raise; each post is recorded as a `Post` effect. A failing post is not modelled: at main.py:96 or main.py:98 it would escape with no error notice at all, at main.py:100 nothing would be posted, and at main.py:112 the prompt stored at main.py:111 would stay pending with no question posted. The "one error notice" facts of `Pipeline.Deliver`, `Pipeline.ExactlyOneOutcome` and `Relay.Handle` hold under this assumption.
- Environment loading, logging and `print` (main.py:14-20, 29, 49, 74, 95). They are side effects with no logic.
- Concurrency of the listener thread over the shared dict. Events are a strictly sequential stream.
- Text.Lower: Unicode case mapping outside A-Z is not modelled, because it cannot change the command test or the prompt slice. Other characters are left unchanged.
- Pipeline.ImageUrl: every reference is treated as a string, and "truthy" means non-empty. A non-string object returned by the image client, for example a file object, is not modelled.
- An event whose `text` or `user` field is present but JSON `null` is not modelled. In Python this makes `.strip()` raise. Absent fields are modelled, with the defaults `""` from main.py:62 and main.py:66.
- Pipeline.Deliver: a failure while writing the staging file and a failure while uploading are merged into one fault. `stagingLeft` means the file may remain, not that it certainly does.

=== FILE: conversation.dfy ===
/**
 The per-user conversation state machine of the Slack relay: each message event
 either starts a two-turn "generate <prompt>" command, completes it with an
 aspect ratio, is answered with a re-prompt, or is ignored. The only state is
 the table of pending prompts, one per user, awaiting a ratio.
 */
module Conversation {
  import opened Wrappers
  import opened Text

  /** The aspect ratios the bot offers and accepts as replies, in the order offered. */
  const Ratios: seq<string> := ["21:9", "16:9", "3:2", "4:3", "5:4", "1:1", "4:5", "3:4", "2:3", "9:16", "9:21"]

  /** The vocabulary has eleven distinct entries. */
  lemma RatioVocabulary()
    ensures |Ratios| == 11
    ensures forall i, j :: 0 <= i < j < |Ratios| ==> Ratios[i] != Ratios[j]
  {
  }

  /** The command word, matched case-insensitively at the start of a message. */
  const CommandPrefix: string := "generate "

  /** Pending prompts, keyed by Slack user id. */
  type Table = map<string, string>

  /** What the handler does in reply to one message event. */
  datatype Action =
    | Ignore                                   // no reply, nothing generated
    | AskRatio                                 // prompt stored; ask which ratio
    | AskValidRatio                            // reply was not a ratio; list them again
    | AskNonEmptyPrompt                        // command without a prompt
    | Generate(prompt: string, ratio: string)  // run the image model

  /** The deployment settings read from the environment; either may be unset. */
  datatype Config = Config(channelId: Option<string>, botUserId: Option<string>)

  /** The fields of a Slack event the handler reads; each may be missing. */
  datatype Event = Event(kind: Option<string>, channel: Option<string>, user: Option<string>, text: Option<string>)

  /** The user id of an event, `""` when the event names none. */
  function UserOf(e: Event): string
  {
    e.user.GetOr("")
  }

  /** The message text with surrounding whitespace removed. */
  function MessageOf(e: Event): string
  {
    Strip(e.text.GetOr(""))
  }

  /** The event is a non-blank message posted by someone other than the bot
      in the configured channel: the only events the handler acts on. */
  predicate Addressed(cfg: Config, e: Event)
  {
    && e.kind == Some("message")
    && e.channel == cfg.channelId
    && cfg.botUserId != Some(UserOf(e))
    && |MessageOf(e)| > 0
  }

  /** The message, lower-cased, starts with the command word. */
  predicate IsCommand(msg: string)
  {
    StartsWith(Lower(msg), CommandPrefix)
  }

  /** The prompt of a command: the text after the command word, re-stripped,
      in its original case. */
  function PromptOf(msg: string): string
    requires |CommandPrefix| <= |msg|
  {
    Strip(msg[|CommandPrefix|..])
  }

  /** The two tables hold the same entries for every user but `user`. */
  ghost predicate SameExcept(a: Table, b: Table, user: string)
  {
    forall u :: u != user ==> (u in a <==> u in b) && (u in a ==> a[u] == b[u])
  }

  /** Every stored prompt is non-empty and carries no surrounding whitespace. */
  ghost predicate WellFormed(t: Table)
  {
    forall u :: u in t ==> |t[u]| > 0 && IsStripped(t[u])
  }

  /** A stripped message that starts with the command word always carries a
      prompt: the message cannot end in the command word's trailing space, so
      some non-whitespace character follows it. */
  lemma CommandPromptNonEmpty(msg: string)
    requires IsStripped(msg)
    requires IsCommand(msg)
    ensures |PromptOf(msg)| > 0
  {
    var n := |msg|;
    var k := |CommandPrefix|;
    if n == k {
      assert Lower(msg)[k - 1] == CommandPrefix[k - 1] == ' ';
      LowerCharKeepsSpace(msg[k - 1]);
      assert false;
    }
    var rest := msg[k..];
    assert rest[n - 1 - k] == msg[n - 1];
    StripKeepsNonSpace(rest, n - 1 - k);
  }

  /** The reply to the non-blank, stripped message `msg` from `user`. A user
      with a pending prompt can only answer with a ratio; any other user can
      only start a command. */
  function Decide(t: Table, user: string, msg: string): (r: (Table, Action))
    requires |msg| > 0 && IsStripped(msg)
    ensures SameExcept(r.0, t, user)
    ensures WellFormed(t) ==> WellFormed(r.0)
    ensures r.1 != AskNonEmptyPrompt
    ensures r.1 == Ignore || r.1 == AskValidRatio ==> r.0 == t
    ensures r.1.Generate? <==> user in t && msg in Ratios
    ensures r.1.Generate? ==> r.1 == Generate(t[user], msg) && user !in r.0
    ensures r.1 == AskValidRatio <==> user in t && msg !in Ratios
    ensures r.1 == AskRatio <==> user !in t && IsCommand(msg)
    ensures r.1 == AskRatio ==> user in r.0 && r.0[user] == PromptOf(msg)
  {
    if user in t then
      if msg in Ratios then (t - {user}, Generate(t[user], msg))
      else (t, AskValidRatio)
    else if IsCommand(msg) then
      CommandPromptNonEmpty(msg);
      StartCommand(t, user, msg)
    else (t, Ignore)
  }

  /** One message event: the new table of pending prompts and the reply. */
  function Step(cfg: Config, t: Table, e: Event): (r: (Table, Action))
    ensures SameExcept(r.0, t, UserOf(e))
    ensures WellFormed(t) ==> WellFormed(r.0)
    ensures r.1 != AskNonEmptyPrompt
    ensures !Addressed(cfg, e) ==> r == (t, Ignore)
    ensures r.1 == Ignore || r.1 == AskValidRatio ==> r.0 == t
    ensures r.1 == AskRatio ==> UserOf(e) !in t && UserOf(e) in r.0
    ensures r.1.Generate? ==> UserOf(e) in t && UserOf(e) !in r.0 && r.1.prompt == t[UserOf(e)]
  {
    if e.kind != Some("message") || e.channel != cfg.channelId then (t, Ignore)
    else if cfg.botUserId == Some(UserOf(e)) then (t, Ignore)
    else if |MessageOf(e)| == 0 then (t, Ignore)
    else
      Decide(t, UserOf(e), MessageOf(e))
  }

  /** A command from a user with no pending prompt: store the prompt, or
      complain that there is none. */
  function StartCommand(t: Table, user: string, msg: string): (r: (Table, Action))
    requires user !in t && IsCommand(msg)
    ensures r.1 == AskRatio || r.1 == AskNonEmptyPrompt
    ensures SameExcept(r.0, t, user)
    ensures r.1 == AskNonEmptyPrompt <==> |PromptOf(msg)| == 0
    ensures r.1 == AskNonEmptyPrompt ==> r.0 == t
    ensures r.1 == AskRatio ==> r.0 == t[user := PromptOf(msg)] && IsStripped(r.0[user])
    ensures WellFormed(t) ==> WellFormed(r.0)
  {
    var prompt := PromptOf(msg);
    if |prompt| == 0 then (t, AskNonEmptyPrompt)
    else
      (t[user := prompt], AskRatio)
  }

  /** A reply naming a ratio consumes the user's pending prompt and generates
      from it with that ratio. */
  lemma ValidRatioConsumes(cfg: Config, t: Table, e: Event)
    requires Addressed(cfg, e) && UserOf(e) in t && MessageOf(e) in Ratios
    ensures Step(cfg, t, e) == (t - {UserOf(e)}, Generate(t[UserOf(e)], MessageOf(e)))
  {
  }

  /** Any other reply leaves the pending prompt in place and asks again. */
  lemma InvalidReplyKeeps(cfg: Config, t: Table, e: Event)
    requires Addressed(cfg, e) && UserOf(e) in t && MessageOf(e) !in Ratios
    ensures Step(cfg, t, e) == (t, AskValidRatio)
  {
  }

  /** No ratio reads as a command: each is shorter than the command word. */
  lemma NoRatioIsCommand(msg: string)
    requires msg in Ratios
    ensures !IsCommand(msg)
  {
  }

  /** A fresh command while a prompt is pending counts as an invalid ratio
      reply: it neither replaces the pending prompt nor stores a new one. */
  lemma PendingCommandIsInvalidReply(cfg: Config, t: Table, e: Event)
    requires Addressed(cfg, e) && UserOf(e) in t && IsCommand(MessageOf(e))
    ensures Step(cfg, t, e) == (t, AskValidRatio)
  {
    if MessageOf(e) in Ratios {
      NoRatioIsCommand(MessageOf(e));
    }
  }

  /** A command from a user with nothing pending stores its prompt, in its
      original case, under that user and asks for a ratio. */
  lemma NewCommandStores(cfg: Config, t: Table, e: Event)
    requires Addressed(cfg, e) && UserOf(e) !in t && IsCommand(MessageOf(e))
    ensures |PromptOf(MessageOf(e))| > 0
    ensures Step(cfg, t, e) == (t[UserOf(e) := PromptOf(MessageOf(e))], AskRatio)
  {
    CommandPromptNonEmpty(MessageOf(e));
  }

  /** Without a pending prompt, anything but a command is ignored. */
  lemma NonCommandIgnored(cfg: Config, t: Table, e: Event)
    requires Addressed(cfg, e) && UserOf(e) !in t && !IsCommand(MessageOf(e))
    ensures Step(cfg, t, e) == (t, Ignore)
  {
  }

  /** Re-sending a ratio that has just been consumed is ignored: the user has
      nothing pending and a ratio is not a command. */
  lemma ReplayedRatioIgnored(cfg: Config, t: Table, e: Event)
    requires Step(cfg, t, e).1.Generate?
    ensures Step(cfg, Step(cfg, t, e).0, e) == (Step(cfg, t, e).0, Ignore)
  {
    NoRatioIsCommand(MessageOf(e));
  }

  /** The command word alone, from a user with nothing pending, is ignored,
      not answered with a request for a prompt: stripping removes its trailing
      space first. */
  lemma BareCommandIgnored(cfg: Config, t: Table, e: Event)
    requires e.kind == Some("message") && e.channel == cfg.channelId
    requires cfg.botUserId != Some(UserOf(e)) && UserOf(e) !in t
    requires e.text == Some("generate ")
    ensures Step(cfg, t, e) == (t, Ignore)
  {
  }

  /** From a user with a pending prompt, the command word alone is a reply
      that is not a ratio: the prompt stays and the ratios are offered again. */
  lemma BareCommandWhilePending(cfg: Config, t: Table, e: Event)
    requires e.kind == Some("message") && e.channel == cfg.channelId
    requires cfg.botUserId != Some(UserOf(e)) && UserOf(e) in t
    requires e.text == Some("generate ")
    ensures Step(cfg, t, e) == (t, AskValidRatio)
  {
  }

  /** The event stream processed in order, from table `t`: the final table and
      the reply to each event. */
  function Run(cfg: Config, t: Table, evs: seq<Event>): (r: (Table, seq<Action>))
    ensures |r.1| == |evs|
    ensures WellFormed(t) ==> WellFormed(r.0)
    ensures forall i :: 0 <= i < |r.1| ==> r.1[i] != AskNonEmptyPrompt
    ensures forall i :: 0 <= i < |r.1| && r.1[i] != Ignore ==> Addressed(cfg, evs[i])
    decreases |evs|
  {
    if |evs| == 0 then (t, [])
    else
      var (t1, a) := Step(cfg, t, evs[0]);
      var (t2, acts) := Run(cfg, t1, evs[1..]);
      (t2, [a] + acts)
  }

  /** How many of the replies to `user`'s events are generations. */
  function Generated(evs: seq<Event>, acts: seq<Action>, user: string): nat
    requires |evs| == |acts|
    decreases |evs|
  {
    if |evs| == 0 then 0
    else (if UserOf(evs[0]) == user && acts[0].Generate? then 1 else 0) + Generated(evs[1..], acts[1..], user)
  }

  /** How many of the replies to `user`'s events store a prompt. */
  function Stored(evs: seq<Event>, acts: seq<Action>, user: string): nat
    requires |evs| == |acts|
    decreases |evs|
  {
    if |evs| == 0 then 0
    else (if UserOf(evs[0]) == user && acts[0] == AskRatio then 1 else 0) + Stored(evs[1..], acts[1..], user)
  }

  /** 1 when `user` has a prompt pending in `t`, else 0. */
  function Pending(t: Table, user: string): nat
  {
    if user in t then 1 else 0
  }

  /** Every stored prompt is generated from at most once: over any stream,
      the generations for a user plus a prompt still pending at the end
      equal the prompts stored plus one pending at the start. */
  lemma {:induction false} EachPromptConsumedOnce(cfg: Config, t: Table, evs: seq<Event>, user: string)
    ensures Generated(evs, Run(cfg, t, evs).1, user) + Pending(Run(cfg, t, evs).0, user)
         == Stored(evs, Run(cfg, t, evs).1, user) + Pending(t, user)
    decreases |evs|
  {
    if |evs| > 0 {
      var (t1, a) := Step(cfg, t, evs[0]);
      var r := Run(cfg, t, evs);
      assert r == (Run(cfg, t1, evs[1..]).0, [a] + Run(cfg, t1, evs[1..]).1);
      assert r.1[1..] == Run(cfg, t1, evs[1..]).1;
      EachPromptConsumedOnce(cfg, t1, evs[1..], user);
      if UserOf(evs[0]) != user {
        assert Pending(t1, user) == Pending(t, user);
      }
    }
  }

  /** Hence a user never gets more generations than prompts they stored,
      plus one already pending. */
  lemma GenerationsBounded(cfg: Config, t: Table, evs: seq<Event>, user: string)
    ensures Generated(evs, Run(cfg, t, evs).1, user) <= Stored(evs, Run(cfg, t, evs).1, user) + Pending(t, user)
  {
    EachPromptConsumedOnce(cfg, t, evs, user);
  }
}

=== FILE: pipeline.dfy ===
/**
 The generation and delivery tail run once a ratio reply completes a command:
 call the image model, fetch the image it points to, stage it in a local file,
 upload it to the channel, and delete the file. Every outside call is an input
 here; what is modelled is how their answers and failures map to what the
 channel sees.
 */
module Pipeline {
  import opened Text

  newtype byte = x: int | 0 <= x < 256

  /** What the image model call produced: a list of references, a single
      reference, or an exception. */
  datatype GeneratorOutput =
    | ListOutput(items: seq<string>)
    | ScalarOutput(value: string)
    | GeneratorRaised

  /** The answer to the HTTP GET of the image: a status and a body, or an
      exception raised by the transport. */
  datatype FetchResult = Response(status: int, body: seq<byte>) | FetchRaised

  /** Where the staging-and-upload sequence failed, if it did: writing the
      staging file or uploading it, or deleting the file after the upload. */
  datatype TransferFault = NoFault | UploadFault | CleanupFault

  /** What the channel sees. */
  datatype Effect =
    | Post(text: string)
    | Upload(content: seq<byte>, title: string, comment: string)

  /** The outcome of one delivery: the URL fetched (if any), the channel
      effects in order, and whether the staging file may be left on disk. */
  datatype Delivery = Delivery(fetched: seq<string>, effects: seq<Effect>, stagingLeft: bool)

  const ErrorText: string := "\U{274C} Une erreur est survenue lors de la g\U{E9}n\U{E9}ration de l'image."
  const UploadTitle: string := "Image g\U{E9}n\U{E9}r\U{E9}e"

  /** The upload comment, which mentions the requesting user. */
  function Caption(user: string): (c: string)
    ensures StartsWith(c, "<@" + user + ">")
  {
    "<@" + user + ">" + " Et voil\U{E0} le travail \U{26A1}"
  }

  /** The image reference taken from the model's answer: the first element of
      a list, the value itself otherwise, and `""` whenever the call raised,
      including indexing into an empty list. */
  function ImageUrl(o: GeneratorOutput): (url: string)
    ensures url != "" ==> (o.ListOutput? && |o.items| > 0 && url == o.items[0]) || (o.ScalarOutput? && url == o.value)
    ensures o.ListOutput? && |o.items| > 0 ==> url == o.items[0]
    ensures o.ScalarOutput? ==> url == o.value
    ensures o.GeneratorRaised? || o == ListOutput([]) ==> url == ""
  {
    match o
    case ListOutput(items) => if |items| > 0 then items[0] else ""
    case ScalarOutput(v) => v
    case GeneratorRaised => ""
  }

  /** Number of uploads among `effects`. */
  function Uploads(effects: seq<Effect>): nat
  {
    if |effects| == 0 then 0 else (if effects[0].Upload? then 1 else 0) + Uploads(effects[1..])
  }

  /** Number of failure notices among `effects`. */
  function Errors(effects: seq<Effect>): nat
  {
    if |effects| == 0 then 0 else (if effects[0] == Post(ErrorText) then 1 else 0) + Errors(effects[1..])
  }

  /** The image reached the channel: a non-empty reference, a 200 answer, and
      neither the staging write nor the upload raised. */
  predicate Uploaded(out: GeneratorOutput, fetch: FetchResult, fault: TransferFault)
  {
    ImageUrl(out) != "" && fetch.Response? && fetch.status == 200 && fault != UploadFault
  }

  /** Deliver the model's answer for `user` to the channel. */
  function Deliver(user: string, out: GeneratorOutput, fetch: FetchResult, fault: TransferFault): (d: Delivery)
    ensures d.fetched == (if ImageUrl(out) != "" then [ImageUrl(out)] else [])
    ensures Uploads(d.effects) == (if Uploaded(out, fetch, fault) then 1 else 0)
    ensures Errors(d.effects) == (if Uploaded(out, fetch, fault) && fault == NoFault then 0 else 1)
    ensures |d.effects| == Uploads(d.effects) + Errors(d.effects)
    ensures forall k :: 0 <= k < |d.effects| && d.effects[k].Upload? ==>
              d.effects[k] == Upload(fetch.body, UploadTitle, Caption(user))
    ensures d.stagingLeft <==> ImageUrl(out) != "" && fetch.Response? && fetch.status == 200 && fault != NoFault
  {
    var url := ImageUrl(out);
    if url == "" then Delivery([], [Post(ErrorText)], false)
    else
      match fetch
      case FetchRaised => Delivery([url], [Post(ErrorText)], false)
      case Response(status, body) =>
        if status != 200 then Delivery([url], [Post(ErrorText)], false)
        else
          var upload := Upload(body, UploadTitle, Caption(user));
          match fault
          case NoFault => Delivery([url], [upload], false)
          case UploadFault => Delivery([url], [Post(ErrorText)], true)
          case CleanupFault =>
            assert [upload, Post(ErrorText)][1..] == [Post(ErrorText)];
            assert Uploads([Post(ErrorText)]) == 0 && Errors([Post(ErrorText)]) == 1;
            Delivery([url], [upload, Post(ErrorText)], true)
  }

  /** Unless deleting the staging file fails after a successful upload, a
      delivery has exactly one visible outcome: the image, or one failure
      notice and no image. */
  lemma ExactlyOneOutcome(user: string, out: GeneratorOutput, fetch: FetchResult, fault: TransferFault)
    requires fault != CleanupFault
    ensures |Deliver(user, out, fetch, fault).effects| == 1
    ensures Uploads(Deliver(user, out, fetch, fault).effects) == 1 <==> Uploaded(out, fetch, fault)
    ensures Errors(Deliver(user, out, fetch, fault).effects) == 1 <==> !Uploaded(out, fetch, fault)
  {
  }

  /** An empty reference, a failed fetch or a non-200 answer each produce one
      failure notice, no upload, and no staging file. */
  lemma EarlyFailureLeavesNothing(user: string, out: GeneratorOutput, fetch: FetchResult, fault: TransferFault)
    requires ImageUrl(out) == "" || fetch.FetchRaised? || fetch.status != 200
    ensures Deliver(user, out, fetch, fault) == Delivery(if ImageUrl(out) == "" then [] else [ImageUrl(out)], [Post(ErrorText)], false)
  {
  }

  /** A reference, a 200 answer and a clean transfer deliver the fetched
      bytes once, captioned for the user, and leave no staging file. */
  lemma SuccessfulDelivery(user: string, out: GeneratorOutput, body: seq<byte>)
    requires ImageUrl(out) != ""
    ensures Deliver(user, out, Response(200, body), NoFault)
         == Delivery([ImageUrl(out)], [Upload(body, UploadTitle, Caption(user))], false)
  {
  }
}

=== FILE: relay.dfy ===
/**
 One incoming message event end to end: the conversation step decides the
 reply, and a completed command runs the generation pipeline. The outside
 world's answers for the event (the model's output, the fetch, the transfer)
 are inputs.
 */
module Relay {
  import opened Wrappers
  import opened Text
  import opened Conversation
  import opened Pipeline

  /** The outside world's answers for the generation an event may trigger. */
  datatype World = World(output: GeneratorOutput, fetch: FetchResult, fault: TransferFault)

  /** A request made to the image model. */
  datatype GenerationCall = GenerationCall(prompt: string, aspectRatio: string, upsampling: bool)

  /** Everything one event causes: the new table, the model calls, the URLs
      fetched, the channel effects in order, and whether a staging file may
      remain. */
  datatype Reaction = Reaction(
    table: Table,
    calls: seq<GenerationCall>,
    fetched: seq<string>,
    effects: seq<Effect>,
    stagingLeft: bool)

  /** The separator between offered ratios. */
  const ListSeparator: string := ", "

  const RatioQuestion: string := "\U{1F5BC} Quel ratio souhaitez-vous ? R\U{E9}pondez avec l'un des choix suivants : "
  const InvalidRatioNotice: string := "\U{26A0}\U{FE0F} Merci de r\U{E9}pondre avec l'un des ratios valides : "
  const EmptyPromptNotice: string := "\U{26A0}\U{FE0F} Merci de fournir un prompt apr\U{E8}s `generate`."

  /** The offered ratios as they appear in a reply. */
  function RatioList(): string
  {
    Join(Ratios, ListSeparator)
  }

  /** The message posted for a reply that is just text, if any. */
  function ReplyText(a: Action): (r: Option<string>)
    ensures r.None? <==> a == Ignore || a.Generate?
    ensures a == AskRatio || a == AskValidRatio ==> r.Some? && StartsWith(r.value, if a == AskRatio then RatioQuestion else InvalidRatioNotice)
  {
    match a
    case Ignore => None
    case AskRatio => Some(RatioQuestion + RatioList())
    case AskValidRatio => Some(InvalidRatioNotice + RatioList())
    case AskNonEmptyPrompt => Some(EmptyPromptNotice)
    case Generate(_, _) => None
  }

  /** Handle one event from table `t`, the outside world answering with `w`. */
  function Handle(cfg: Config, t: Table, e: Event, w: World): (r: Reaction)
    ensures WellFormed(t) ==> WellFormed(r.table)
    ensures SameExcept(r.table, t, UserOf(e))
    ensures !Addressed(cfg, e) ==> r == Reaction(t, [], [], [], false)
    ensures |r.calls| <= 1 && |r.fetched| <= |r.calls|
    ensures |r.calls| == 1 <==> Addressed(cfg, e) && UserOf(e) in t && MessageOf(e) in Ratios
    ensures |r.calls| == 1 ==> r.calls[0] == GenerationCall(t[UserOf(e)], MessageOf(e), true) && UserOf(e) !in r.table
    ensures |r.calls| == 0 ==> Uploads(r.effects) == 0 && |r.effects| <= 1 && !r.stagingLeft
    ensures |r.calls| == 1 && w.fault != CleanupFault ==> Uploads(r.effects) + Errors(r.effects) == 1
    ensures |r.calls| == 1 ==> (Uploads(r.effects) == 1 <==> Uploaded(w.output, w.fetch, w.fault))
  {
    var (t', a) := Step(cfg, t, e);
    if a.Generate? then
      var d := Deliver(UserOf(e), w.output, w.fetch, w.fault);
      Reaction(t', [GenerationCall(a.prompt, a.ratio, true)], d.fetched, d.effects, d.stagingLeft)
    else
      Reaction(t', [], [], Replies(a), false)
  }

  /** The text replies for an action, posted as at most one message. */
  function Replies(a: Action): (effects: seq<Effect>)
    ensures Uploads(effects) == 0 && |effects| <= 1
    ensures |effects| == 1 <==> ReplyText(a).Some?
    ensures ReplyText(a).Some? ==> effects == [Post(ReplyText(a).value)]
  {
    match ReplyText(a)
    case Some(text) => [Post(text)]
    case None => []
  }

  /** No ratio contains the comma that starts the separator. */
  lemma RatiosSeparatorFree()
    ensures SeparatorFree(Ratios, ListSeparator)
  {
  }

  /** A ratio prompt or re-prompt lists exactly the offered ratios, in order:
      reading the list back after the notice recovers them. */
  lemma RepliesListAllRatios(a: Action)
    requires a == AskRatio || a == AskValidRatio
    ensures var text := ReplyText(a).value;
            var notice := if a == AskRatio then RatioQuestion else InvalidRatioNotice;
            Split(text[|notice|..], ListSeparator) == Ratios
  {
    RatiosSeparatorFree();
    SplitJoin(Ratios, ListSeparator);
    var notice := if a == AskRatio then RatioQuestion else InvalidRatioNotice;
    assert ReplyText(a).value[|notice|..] == RatioList();
  }

  /** A command from `user`, with nothing pending, is answered with the ratio
      question and stores its prompt. */
  lemma CommandAsksRatio(cfg: Config, t: Table, e: Event, w: World)
    requires Addressed(cfg, e) && UserOf(e) !in t && IsCommand(MessageOf(e))
    ensures Handle(cfg, t, e, w)
         == Reaction(t[UserOf(e) := PromptOf(MessageOf(e))], [], [], [Post(RatioQuestion + RatioList())], false)
  {
    NewCommandStores(cfg, t, e);
  }

  /** Any other reply from a user with a pending prompt keeps the prompt and
      posts the re-prompt listing the ratios; nothing is called or uploaded. */
  lemma InvalidReplyReprompts(cfg: Config, t: Table, e: Event, w: World)
    requires Addressed(cfg, e) && UserOf(e) in t && MessageOf(e) !in Ratios
    ensures Handle(cfg, t, e, w) == Reaction(t, [], [], [Post(InvalidRatioNotice + RatioList())], false)
  {
    InvalidReplyKeeps(cfg, t, e);
  }

  /** A ratio reply from a user with a pending prompt calls the model once
      with that prompt and ratio and delivers the answer. */
  lemma RatioReplyGenerates(cfg: Config, t: Table, e: Event, w: World)
    requires Addressed(cfg, e) && UserOf(e) in t && MessageOf(e) in Ratios
    ensures var d := Deliver(UserOf(e), w.output, w.fetch, w.fault);
            Handle(cfg, t, e, w) ==
              Reaction(t - {UserOf(e)}, [GenerationCall(t[UserOf(e)], MessageOf(e), true)], d.fetched, d.effects, d.stagingLeft)
  {
    ValidRatioConsumes(cfg, t, e);
  }

  /** The two-message dialogue from a user with nothing pending: the command
      is answered with the ratio question, and the ratio reply calls the model
      once with the prompt and ratio. If the model returns a reference and the
      fetch answers 200, exactly one upload of the fetched bytes follows and
      the table is back to what it was. */
  lemma DialogueDelivers(cfg: Config, t: Table, e1: Event, e2: Event, w1: World, out: GeneratorOutput, body: seq<byte>)
    requires Addressed(cfg, e1) && Addressed(cfg, e2) && UserOf(e1) == UserOf(e2) && UserOf(e1) !in t
    requires IsCommand(MessageOf(e1)) && MessageOf(e2) in Ratios
    requires ImageUrl(out) != ""
    ensures var r1 := Handle(cfg, t, e1, w1);
            var r2 := Handle(cfg, r1.table, e2, World(out, Response(200, body), NoFault));
            && r1.effects == [Post(RatioQuestion + RatioList())]
            && r1.calls == []
            && r2.calls == [GenerationCall(PromptOf(MessageOf(e1)), MessageOf(e2), true)]
            && r2.fetched == [ImageUrl(out)]
            && r2.effects == [Upload(body, UploadTitle, Caption(UserOf(e1)))]
            && r2.table == t
            && !r2.stagingLeft
  {
    var user := UserOf(e1);
    CommandAsksRatio(cfg, t, e1, w1);
    var t1 := t[user := PromptOf(MessageOf(e1))];
    RatioReplyGenerates(cfg, t1, e2, World(out, Response(200, body), NoFault));
    SuccessfulDelivery(user, out, body);
    AddThenRemove(t, user, PromptOf(MessageOf(e1)));
  }

  /** The same dialogue when the model returns nothing usable: one failure
      notice, no fetch, no upload, no staging file, nothing pending. */
  lemma DialogueFailsOnEmptyResult(cfg: Config, t: Table, e1: Event, e2: Event, w1: World, w2: World)
    requires Addressed(cfg, e1) && Addressed(cfg, e2) && UserOf(e1) == UserOf(e2) && UserOf(e1) !in t
    requires IsCommand(MessageOf(e1)) && MessageOf(e2) in Ratios
    requires ImageUrl(w2.output) == ""
    ensures var r2 := Handle(cfg, Handle(cfg, t, e1, w1).table, e2, w2);
            && r2.calls == [GenerationCall(PromptOf(MessageOf(e1)), MessageOf(e2), true)]
            && r2.fetched == []
            && r2.effects == [Post(ErrorText)]
            && r2.table == t
            && !r2.stagingLeft
  {
    var user := UserOf(e1);
    CommandAsksRatio(cfg, t, e1, w1);
    var t1 := t[user := PromptOf(MessageOf(e1))];
    RatioReplyGenerates(cfg, t1, e2, w2);
    AddThenRemove(t, user, PromptOf(MessageOf(e1)));
  }

  /** The worked example: "generate a red fox" then "16:9" from one user on
      the configured channel form such a dialogue, with prompt "a red fox". */
  lemma RedFoxExample(cfg: Config, user: string)
    requires cfg.channelId == Some("C1") && cfg.botUserId != Some(user)
    ensures var e1 := Event(Some("message"), Some("C1"), Some(user), Some("generate a red fox"));
            var e2 := Event(Some("message"), Some("C1"), Some(user), Some("16:9"));
            && Addressed(cfg, e1) && Addressed(cfg, e2)
            && IsCommand(MessageOf(e1)) && PromptOf(MessageOf(e1)) == "a red fox"
            && MessageOf(e2) == "16:9" && MessageOf(e2) in Ratios
  {
    RedFoxText(user);
    RedFoxIsCommand();
    RedFoxPrompt();
    RedFoxRatio(user);
  }

  /** The worked example end to end, for user "U1" in channel "C1" with an
      empty table: the command is answered with the ratio question, the ratio
      reply calls the model once with ("a red fox", "16:9", upsampling on),
      the fetched bytes are uploaded once, and "U1" has nothing pending. */
  lemma RedFoxDialogue(w1: World, url: string, body: seq<byte>)
    requires url != ""
    ensures var cfg := Config(Some("C1"), Some("B"));
            var r1 := Handle(cfg, map[], Event(Some("message"), Some("C1"), Some("U1"), Some("generate a red fox")), w1);
            var r2 := Handle(cfg, r1.table, Event(Some("message"), Some("C1"), Some("U1"), Some("16:9")),
                             World(ScalarOutput(url), Response(200, body), NoFault));
            && r1.effects == [Post(RatioQuestion + RatioList())]
            && r2.calls == [GenerationCall("a red fox", "16:9", true)]
            && r2.effects == [Upload(body, UploadTitle, Caption("U1"))]
            && "U1" !in r2.table
  {
    var cfg := Config(Some("C1"), Some("B"));
    var e1 := Event(Some("message"), Some("C1"), Some("U1"), Some("generate a red fox"));
    var e2 := Event(Some("message"), Some("C1"), Some("U1"), Some("16:9"));
    RedFoxExample(cfg, "U1");
    DialogueDelivers(cfg, map[], e1, e2, w1, ScalarOutput(url), body);
  }

  /** The example command is already stripped. */
  lemma RedFoxText(user: string)
    ensures MessageOf(Event(Some("message"), Some("C1"), Some(user), Some("generate a red fox"))) == "generate a red fox"
  {
    StripFixedPoint("generate a red fox");
  }

  /** The example command starts with the command word. */
  lemma RedFoxIsCommand()
    ensures IsCommand("generate a red fox")
  {
    LowerFixed("generate a red fox");
  }

  /** The example ratio reply is already stripped. */
  lemma RedFoxRatio(user: string)
    ensures MessageOf(Event(Some("message"), Some("C1"), Some(user), Some("16:9"))) == "16:9"
  {
    StripFixedPoint("16:9");
  }

  /** The example command's prompt. */
  lemma RedFoxPrompt()
    ensures PromptOf("generate a red fox") == "a red fox"
  {
    var p := "generate a red fox"[|CommandPrefix|..];
    assert p == "a red fox";
    StripFixedPoint(p);
  }

  /** Storing a prompt for a user with none and then consuming it restores the table. */
  lemma AddThenRemove(t: Table, user: string, prompt: string)
    requires user !in t
    ensures t[user := prompt] - {user} == t
  {
  }
}

=== FILE: text.dfy ===
/**
 The string primitives the message handler relies on: Python's `str.strip()`
 (with its notion of whitespace), `str.lower()` restricted to ASCII letters,
 `str.startswith`, and `", ".join`. Strings are sequences of Unicode scalar
 values. A Python string may also hold lone surrogates (U+D800 to U+DFFF); the
 model leaves them out, and since they are neither whitespace nor A-Z no result
 here would change for them.
 */
module Text {

  /** Python's `str.isspace()` for one code point: the characters `str.strip()`
      removes when called without arguments. */
  predicate IsSpace(c: char) {
    || ('\t' <= c <= '\r')                 // tab, line feed, vertical tab, form feed, carriage return
    || ('\U{1C}' <= c <= '\U{1F}')         // file, group, record and unit separators
    || c == ' '
    || c == '\U{85}'                       // next line
    || c == '\U{A0}'                       // no-break space
    || c == '\U{1680}'
    || ('\U{2000}' <= c <= '\U{200A}')
    || c == '\U{2028}' || c == '\U{2029}'
    || c == '\U{202F}' || c == '\U{205F}' || c == '\U{3000}'
  }

  /** The first position at or after `i` that does not hold whitespace, or
      `|s|` when there is none. */
  function SkipSpaces(s: string, i: nat): (n: nat)
    requires i <= |s|
    ensures i <= n <= |s|
    ensures forall k :: i <= k < n ==> IsSpace(s[k])
    ensures n < |s| ==> !IsSpace(s[n])
    decreases |s| - i
  {
    if i < |s| && IsSpace(s[i]) then SkipSpaces(s, i + 1) else i
  }

  /** The end of `s[lo..hi]` once trailing whitespace is dropped. */
  function SkipSpacesBack(s: string, lo: nat, hi: nat): (n: nat)
    requires lo <= hi <= |s|
    ensures lo <= n <= hi
    ensures forall k :: n <= k < hi ==> IsSpace(s[k])
    ensures n > lo ==> !IsSpace(s[n - 1])
    decreases hi
  {
    if hi > lo && IsSpace(s[hi - 1]) then SkipSpacesBack(s, lo, hi - 1) else hi
  }

  /** Number of whitespace characters `str.strip()` removes from the front of `s`. */
  function Leading(s: string): nat
  {
    SkipSpaces(s, 0)
  }

  /** Python's `s.strip()`: the longest slice of `s` that neither starts nor
      ends with whitespace, obtained by dropping whitespace at both ends. */
  function Strip(s: string): (r: string)
    ensures Leading(s) + |r| <= |s| && r == s[Leading(s)..Leading(s) + |r|]
    ensures forall i :: 0 <= i < Leading(s) ==> IsSpace(s[i])
    ensures forall i :: Leading(s) + |r| <= i < |s| ==> IsSpace(s[i])
    ensures IsStripped(r)
    ensures |r| == 0 <==> forall i :: 0 <= i < |s| ==> IsSpace(s[i])
  {
    var lo := SkipSpaces(s, 0);
    var hi := SkipSpacesBack(s, lo, |s|);
    s[lo..hi]
  }

  /** `s` neither starts nor ends with whitespace. */
  predicate IsStripped(s: string)
  {
    |s| == 0 || (!IsSpace(s[0]) && !IsSpace(s[|s| - 1]))
  }

  /** The strings `str.strip()` leaves alone are exactly those without
      whitespace at either end. */
  lemma StripFixedPoint(s: string)
    ensures Strip(s) == s <==> IsStripped(s)
  {
  }

  /** Stripping twice is stripping once. */
  lemma StripIdempotent(s: string)
    ensures Strip(Strip(s)) == Strip(s)
  {
    StripFixedPoint(Strip(s));
  }

  /** A string holding a non-whitespace character strips to a non-empty string. */
  lemma StripKeepsNonSpace(s: string, i: nat)
    requires i < |s| && !IsSpace(s[i])
    ensures |Strip(s)| > 0
  {
  }

  /** Python's `str.lower()` on one character, for ASCII letters only. */
  function LowerChar(c: char): char
  {
    if 'A' <= c <= 'Z' then (c as int + ('a' as int - 'A' as int)) as char else c
  }

  /** `s.lower()`, character by character: the length never changes. */
  function Lower(s: string): (r: string)
    ensures |r| == |s|
  {
    seq(|s|, i requires 0 <= i < |s| => LowerChar(s[i]))
  }

  /** Lower-casing neither creates nor removes whitespace. */
  lemma LowerCharKeepsSpace(c: char)
    ensures IsSpace(LowerChar(c)) <==> IsSpace(c)
  {
  }

  /** Lower-casing leaves a string without capital ASCII letters unchanged. */
  lemma LowerFixed(s: string)
    requires forall i :: 0 <= i < |s| ==> !('A' <= s[i] <= 'Z')
    ensures Lower(s) == s
  {
  }

  /** Python's `s.startswith(p)`. */
  predicate StartsWith(s: string, p: string)
  {
    |p| <= |s| && s[..|p|] == p
  }

  /** Python's `sep.join(xs)`. */
  function Join(xs: seq<string>, sep: string): string
    decreases |xs|
  {
    if |xs| == 0 then ""
    else if |xs| == 1 then xs[0]
    else xs[0] + sep + Join(xs[1..], sep)
  }

  /** Position of the first `c` in `s`, or `|s|` when there is none. */
  function IndexOf(s: string, c: char): (i: nat)
    ensures i <= |s|
    ensures forall j :: 0 <= j < i ==> s[j] != c
    ensures i < |s| ==> s[i] == c
    decreases |s|
  {
    if |s| == 0 then 0
    else if s[0] == c then 0
    else 1 + IndexOf(s[1..], c)
  }

  /** Cuts `s` at each occurrence of the first character of `sep`, dropping
      `|sep|` characters there: an independent reading of a joined list. */
  function Split(s: string, sep: string): (r: seq<string>)
    requires |sep| > 0
    ensures |r| > 0
    decreases |s|
  {
    var i := IndexOf(s, sep[0]);
    if i == |s| then [s]
    else
      var next := if i + |sep| <= |s| then i + |sep| else |s|;
      [s[..i]] + Split(s[next..], sep)
  }

  /** No element of `xs` holds the first character of `sep`. */
  predicate SeparatorFree(xs: seq<string>, sep: string)
    requires |sep| > 0
  {
    forall k :: 0 <= k < |xs| ==> sep[0] !in xs[k]
  }

  /** Reading a joined list back yields the list, provided the separator
      cannot be confused with the contents of an element. */
  lemma {:induction false} SplitJoin(xs: seq<string>, sep: string)
    requires |xs| > 0 && |sep| > 0
    requires SeparatorFree(xs, sep)
    ensures Split(Join(xs, sep), sep) == xs
    decreases |xs|
  {
    if |xs| == 1 {
      assert sep[0] !in xs[0];
    } else {
      assert sep[0] !in xs[0];
      SplitFirst(xs[0], sep, Join(xs[1..], sep));
      assert SeparatorFree(xs[1..], sep) by {
        forall k | 0 <= k < |xs| - 1 ensures sep[0] !in xs[1..][k] {
          assert xs[1..][k] == xs[k + 1];
        }
      }
      SplitJoin(xs[1..], sep);
      assert xs == [xs[0]] + xs[1..];
    }
  }

  /** Reading back `x + sep + rest` yields `x` first, then whatever `rest`
      reads as, when `x` holds no separator character. */
  lemma SplitFirst(x: string, sep: string, rest: string)
    requires |sep| > 0 && sep[0] !in x
    ensures Split(x + sep + rest, sep) == [x] + Split(rest, sep)
  {
    var s := x + sep + rest;
    assert s == x + (sep + rest);
    IndexOfAfter(x, sep + rest, sep[0]);
    assert s[|x| + |sep|..] == rest;
    assert s[..|x|] == x;
  }

  /** The first `c` in `a + b`, when `a` holds none, is the first `c` of `b`,
      shifted by `|a|`. */
  lemma {:induction false} IndexOfAfter(a: string, b: string, c: char)
    requires c !in a
    requires |b| > 0 && b[0] == c
    ensures IndexOf(a + b, c) == |a|
    decreases |a|
  {
    if |a| > 0 {
      assert (a + b)[0] == a[0] != c;
      assert (a + b)[1..] == a[1..] + b;
      IndexOfAfter(a[1..], b, c);
    } else {
      assert a + b == b;
    }
  }
}

=== FILE: wrappers.dfy ===
/** Optional values, standing for Python's `None` and for keys a dict lookup may miss. */
module Wrappers {

  datatype Option<+T> = None | Some(value: T) {

    /** The value, or `default` when absent: `d.get(key, default)`. */
    function GetOr(default: T): T {
      match this
      case Some(v) => v
      case None => default
    }
  }
}
